=== FILE: README.md ===
# LexiShield AI — session state machine and request handling

LexiShield AI lets a user upload a legal PDF, extracts its text on a Flask
backend, and asks an AI service for one of four single-shot analyses
(summary, jargon, loopholes, asymmetry) or runs a multi-turn legal chatbot
over the document. This project models the two pieces of that system with
real control flow and proves properties of the model:

- the React `App` component's session state (`lexishield-frontend/src/App.js`):
  the staged file, `documentText`, `analysisResult`, `currentAnalysis`,
  `isLoading`, `error`, `chatHistory` and `userQuestion`, with every handler
  written as a pure transition. Each asynchronous handler is split into a
  synchronous Begin step, which yields the request it would send, and a
  Complete step, which applies the request's outcome (`Ok(text)` or `Err`);
- the Flask backend's request handling (`backend/app.py`): validation of the
  `/analyze` and `/upload` requests, the prompt sent to the AI service, and the
  key set of the system-prompt table.

Files:

- `wrappers.dfy` — `Option` and `Result`.
- `text.dfy` — ECMAScript `String.prototype.trim` (its exact whitespace set) and
  Python's case-sensitive `str.endswith`, with a reference characterisation of trim.
- `modes.dfy` — the five analysis modes, their wire tags, the prompt-table keys
  and the ids of the four analysis buttons.
- `backend.dfy` — the `/analyze` and `/upload` handlers. The AI call, the PDF
  text extraction and the failure of the temporary file's deletion are
  function parameters of the handlers.
- `session.dfy` — the frontend handlers as Begin/Complete transitions.
- `workflow.dfy` — the page as the user drives it. It covers which events are
  enabled (which controls are rendered and which are `disabled`) and which
  request is in flight. It also holds the invariant every reachable state keeps.
- `protocol.dfy` — where the two halves meet. It covers the payloads as the
  backend receives them, the responses as the frontend's `try`/`catch` sees them
  (axios resolves on 2xx, rejects otherwise), and the cross-file properties.

The model follows the code in these places:

- choosing a file does not reset any derived state; the reset happens when the
  upload begins (`App.js:76-81`);
- a rejected choice unstages the previously staged file (`App.js:60-69`);
- no handler checks `isLoading`. Only the `disabled` attributes of the rendered
  controls keep two requests from overlapping. So the handlers carry
  `requires !s.isLoading`, and the workflow model only enables a control when
  the page does;
- `analysisResult` is cleared when any analysis begins, the chatbot included
  (`App.js:104`);
- `app.py` does not insist on a non-empty chatbot question. A missing
  `question` becomes `""` and a missing `history` becomes `[]`
  (`backend/app.py:95-96`).

## Model

| member | source | states |
|---|---|---|
| Session.SelectFile | lexishield-frontend/src/App.js:60-69 | a choice is staged iff it is present and declared `application/pdf`; then the error is cleared, otherwise the file is unstaged and the PDF error shown; nothing else changes |
| Session.Init | lexishield-frontend/src/App.js:39-46 | a freshly mounted page is idle with nothing staged, no document text, result, mode, error, chat history or question |
| Session.BeginUpload | lexishield-frontend/src/App.js:71-87 | with no staged file only the error becomes `No file selected.` and nothing is sent; otherwise loading starts, error, text, result, mode and chat history are reset and the staged file is sent |
| Session.CompleteUpload | lexishield-frontend/src/App.js:88-94 | loading ends on every path; a reply becomes the document text, a failure sets the upload error and changes nothing else |
| Session.BeginAnalysis | lexishield-frontend/src/App.js:97-116 | without document text only the error changes and nothing is sent; for every mode loading starts, error and result are cleared and the mode becomes current; a single-shot payload carries only text and mode; the chatbot appends one user turn, sends the extended history and the question, and clears the question box |
| Session.CompleteAnalysis | lexishield-frontend/src/App.js:117-131 | loading ends on every path; a chatbot reply appends exactly one model turn, a single-shot reply becomes the result, a failure only sets the analysis error |
| Session.SubmitChat | lexishield-frontend/src/App.js:134-139 | a question blank after trimming changes nothing; otherwise the trimmed question is appended as the user turn and sent |
| Session.SelectChatbotTab | lexishield-frontend/src/App.js:213-217 | the chatbot becomes current and the result is cleared; chat history and all else unchanged |
| Session.EditQuestion | lexishield-frontend/src/App.js:256 | typing replaces the question with the typed text and changes nothing else |
| Workflow.Next | lexishield-frontend/src/App.js:166-256 | choosing a file, typing and the chatbot tab leave the in-flight request alone; the upload button starts the upload; an analysis button calls the analysis of its mode with an empty question; Send calls the chatbot analysis with the trimmed question; a completion leaves nothing in flight and the page idle |
| Workflow.Enabled | lexishield-frontend/src/App.js:166-260 | choosing a file is always possible; every other control needs the page idle; the analysis buttons, the chatbot tab and Send need document text; the analysis buttons never offer the chatbot; a completion needs a request in flight |
| Workflow.StepPreservesInv | lexishield-frontend/src/App.js:60-139 | every enabled event keeps the invariant: loading iff a request is in flight, model turns only directly after user turns, no derived state without document text, a result only under a single-shot mode, a pending chatbot request's history ends in a user turn |
| Workflow.RunPreservesInv | lexishield-frontend/src/App.js:60-139 | the invariant holds after any sequence of enabled events |
| Workflow.ReachableInv | lexishield-frontend/src/App.js:38-139 | every state reachable from a fresh mount satisfies the invariant |
| Workflow.AppendModelTurn | lexishield-frontend/src/App.js:121 | appending a model turn after a history ending in a user turn keeps every model turn preceded by a user turn |
| Workflow.AppendUserTurn | lexishield-frontend/src/App.js:111 | appending a user turn keeps the chat well formed |
| Workflow.HistoryAppendOnly | lexishield-frontend/src/App.js:71-131 | every event except the upload button leaves the old chat history a prefix of the new one; the upload button empties it |
| Workflow.SettlingEndsLoading | lexishield-frontend/src/App.js:88-131 | every completion leaves the page idle; a failed upload leaves the document text empty and a failed analysis leaves the result empty |
| Workflow.FailedChatKeepsQuestion | lexishield-frontend/src/App.js:110-131 | a failed chatbot request keeps the user's turn as the last one, adds no model turn and shows the analysis error |
| Workflow.TypeStep | lexishield-frontend/src/App.js:241-259 | on the idle chatbot tab the question box is enabled and typing only sets the question |
| Workflow.SendStep | lexishield-frontend/src/App.js:110-114 | sending a question that is not blank once trimmed appends the trimmed question as a user turn and leaves the chatbot request in flight |
| Workflow.ReplyStep | lexishield-frontend/src/App.js:117-131 | a chatbot reply appends exactly the model turn, ends loading and keeps the document and the tab |
| Workflow.AskAndAnswer | lexishield-frontend/src/App.js:110-139 | typing any question that is not blank once trimmed, sending and answering it on the chatbot tab adds exactly the user turn with the trimmed question and the model turn with the reply, and leaves the page idle without error |
| Workflow.ChatTurnOrder | lexishield-frontend/src/App.js:110-128 | any two answered questions, each not blank once trimmed, extend the history by the trimmed first question, its reply, the trimmed second question and its reply, in that order |
| Modes.Parse | backend/app.py:26-32 | a tag is found in the prompt table exactly when it is one of the five keys, and the mode found carries that tag |
| Modes.ParseTag | backend/app.py:26-32 | every mode's tag is a table key that parses back to the mode |
| Modes.ButtonModesAreSingleShot | lexishield-frontend/src/App.js:141-146 | the analysis buttons offer exactly the modes other than the chatbot |
| Text.TrimStart | lexishield-frontend/src/App.js:136-137 | drops exactly a whitespace prefix and leaves a suffix not starting with whitespace |
| Text.TrimEnd | lexishield-frontend/src/App.js:136-137 | drops exactly a whitespace suffix and leaves a prefix not ending with whitespace |
| Text.Trim | lexishield-frontend/src/App.js:136-137 | the result is empty iff the question is all whitespace, and otherwise neither starts nor ends with whitespace |
| Text.TrimStartSkipsWhitespace | lexishield-frontend/src/App.js:136-137 | leading whitespace never affects the trimmed start |
| Text.TrimEndSkipsWhitespace | lexishield-frontend/src/App.js:136-137 | trailing whitespace never affects the trimmed end |
| Text.TrimCharacterization | lexishield-frontend/src/App.js:136-137 | whenever a string is whitespace, a trimmed core and whitespace, trimming returns that core |
| Text.TrimOfTrimmed | lexishield-frontend/src/App.js:136-137 | trimming a string that neither starts nor ends with whitespace returns it unchanged |
| Text.TrimIdempotent | lexishield-frontend/src/App.js:136-137 | trimming a trimmed question changes nothing |
| Text.EndsWithAppend | backend/app.py:65 | every name built by appending `.pdf` passes the suffix test |
| Text.EndsWithSplit | backend/app.py:65 | every name passing the suffix test is some stem followed by `.pdf` |
| Backend.AnalysisPrompt | backend/app.py:103-104 | the single-shot prompt is the fixed preamble followed by exactly the document text |
| Backend.ChatHeaderEnclosesDocument | backend/app.py:97 | the chatbot header is `DOCUMENT CONTEXT:` and a rule, the document verbatim, then a rule and the `CONVERSATION HISTORY:` heading |
| Backend.HistoryLineShape | backend/app.py:99-100 | a conversation line is the role label and `: `, the entry's text verbatim and a newline, at least seven characters |
| Backend.HistoryLinesShape | backend/app.py:98-100 | the conversation section is empty exactly for an empty history, has at least seven characters per entry and otherwise ends with a newline |
| Backend.ChatPromptShape | backend/app.py:97-101 | the chatbot prompt starts with the header and ends with the `NEW QUESTION:` heading followed by the question verbatim, whatever the history |
| Backend.RoleLabel | backend/app.py:99 | only the exact role `user` is labelled `User`; every other role is `Assistant` |
| Backend.HistoryLinesAppend | backend/app.py:98-100 | the conversation lines of `h1 + h2` are those of `h1` followed by those of `h2` |
| Backend.HistoryLinesSnoc | backend/app.py:98-100 | the last entry's line closes the conversation section |
| Backend.ChatPromptSnoc | backend/app.py:97-101 | appending an entry to the history inserts exactly its line between the earlier lines and the question heading |
| Backend.BuildChatPrompt | backend/app.py:97-101 | the prompt built by appending line after line in a loop is header, one line per entry in order, then the question heading and the question |
| Backend.ValidateAnalyze | backend/app.py:84-104 | a missing body or key gives the missing-field error before anything else; an unknown type gives the invalid-type error; a valid body yields its mode and that mode's prompt, with history and question defaulting to empty |
| Backend.ValidBodyPrompt | backend/app.py:89-104 | a body naming any mode's tag is accepted under that mode with that mode's prompt |
| Backend.ChatDefaults | backend/app.py:95-101 | a chatbot body without history and question gets an empty conversation section and an empty question |
| Backend.HandleAnalyze | backend/app.py:84-106 | status 400 exactly on a validation error, carrying its message; otherwise 200 with an analysis result wrapping whatever the AI call returns; every 2xx reply carries an analysis result |
| Backend.ValidateUpload | backend/app.py:59-81 | a request passes iff it has a `file` part whose name ends in `.pdf`; a missing part, an empty name and any other name each get their own error |
| Backend.HandleUpload | backend/app.py:59-81 | 400 exactly on a validation error; 200 with the extracted text exactly when the file is valid, extraction succeeds and deleting the temporary file does not raise; the framework's 500 page exactly when that deletion raises, whatever the extraction gave; otherwise 500 with the prefixed extraction message; every 2xx reply carries document text |
| Protocol.DecodeEncodeHistory | lexishield-frontend/src/App.js:111-112 | the sent history loses nothing: reading its roles and texts back gives the turns, in order |
| Protocol.EncodeHistoryAppend | lexishield-frontend/src/App.js:111-112 | the entries sent for `h1 + h2` are those of `h1` followed by those of `h2` |
| Protocol.AnalyzeOutcomeIff | lexishield-frontend/src/App.js:117-128 | the analysis handler sees a reply exactly when the backend accepts the request, and the reply is what the AI call returned |
| Protocol.TurnRendering | backend/app.py:98-100 | a frontend `user` turn renders as `User: ` and a `model` turn as `Assistant: ` |
| Protocol.FrontendRequestsValidate | lexishield-frontend/src/App.js:106-113 | every analysis request the frontend sends passes backend validation under the mode the user chose |
| Protocol.SingleShotPrompt | lexishield-frontend/src/App.js:106-109 | a single-shot request is answered from the preamble and the document text alone |
| Protocol.ChatRequestBody | lexishield-frontend/src/App.js:110-114 | a chatbot request carries the old history plus the new user turn, and the question |
| Protocol.UserTurnPrompt | backend/app.py:97-101 | a frontend user turn appended to any history adds the line `User: q` just before the question heading |
| Protocol.ChatPromptRepeatsQuestion | backend/app.py:97-101 | the chatbot prompt's conversation section ends with `User: q` and `q` is repeated under the question heading |
| Protocol.AiReplyIsSuccess | backend/app.py:105-106 | whatever the AI call returns for a frontend request reaches the frontend as a successful reply |
| Protocol.AiErrorBecomesModelTurn | backend/app.py:35-56 | an AI failure string lands in the chat as a model turn, with no error shown |
| Protocol.UploadSucceedsIff | backend/app.py:65-80 | an upload gives the frontend document text exactly when the name ends in `.pdf`, extraction succeeds and deleting the temporary file does not raise, and the text is the extracted one |
| Protocol.RemoveFailureLosesText | backend/app.py:68-80 | a valid upload whose temporary file cannot be deleted gets the framework's 500 page even after a successful extraction, and the frontend sees a failure |
| Protocol.PdfTypeWithoutPdfNameRejected | lexishield-frontend/src/App.js:62 | every file declared `application/pdf` whose non-empty name does not end in lower-case `.pdf` is staged by the frontend and rejected by the backend with the invalid-type error, whatever the extraction would give |
| Protocol.UppercasePdfNameRejected | lexishield-frontend/src/App.js:62 | a file declared `application/pdf` but named `REPORT.PDF` is staged by the frontend and rejected by the backend |

## Left out

- The AI call (`call_gemini_api`, `backend/app.py:35-56`): its HTTP request, timeouts, retries with back-off and response parsing are a parameter `ai` of `Backend.HandleAnalyze`; only its three fixed failure strings are modelled.
- PDF processing in the upload handler (`backend/app.py:66-80`): saving and opening the temporary file, the UUID name and the PyMuPDF extraction inside the `try` (lines 68-73) are a parameter `extract`, whose failure message becomes the prefixed 500 error. Deleting the file in the `finally` (lines 77-80) is a parameter `removeRaises` saying only whether that deletion raises; when it does, the exception escapes the handler and the framework's own 500 page is the reply.
- The wording of the five system prompts: only the key set matters, so the AI parameter receives the mode instead of its prompt text.
- Flask routing, CORS and JSON (de)serialisation; axios and FormData transport. Requests and responses are datatypes and the network is an abstract outcome.
- JSON bodies the model cannot express. The model types the body as an object whose fields are strings and whose history is a list of role and text entries. In the Python handler:
  - an empty body (`null`, `{}`, `[]`, `0`, `""`), or an object, list or string body that lacks either key name, gets the 400 missing-field error (`backend/app.py:87-88`);
  - a list or string body that contains both key names passes that test and then raises `TypeError` at `backend/app.py:89`, which gives a 500; so does a body that is a non-zero number or `true`, already at line 87;
  - a hashable `analysis_type` that is not a table key, `null` included, gets the 400 invalid-type error;
  - a non-string `document_text` is formatted into the prompt as Python prints it, and so are a non-string `question` and entry text in a chatbot request;
  - in a chatbot request only, a `history` that is `null`, a boolean, a number or a non-empty string or object raises at `backend/app.py:98`, and so does an entry that is not an object or whose `role`, `parts[0]` or `parts[0]['text']` cannot be read (`backend/app.py:99-100`); each gives a 500; a single-shot request never reads `history` or `question` (`backend/app.py:94-96`);
  - an unhashable `analysis_type` raises at `backend/app.py:91` in every request, which gives a 500;
  - a request not declared as JSON gets a 415 from recent Flask versions, and a JSON-declared body that does not parse gets a 400 from `request.get_json()` (`backend/app.py:86`).
- Backend.HandleAnalyze: the AI call is assumed to return a string. `call_gemini_api` can raise instead: a reply with `candidates` but a missing key or an empty list raises `KeyError` or `IndexError` at `backend/app.py:50`, and the `except` at line 53 only catches `RequestException`. Flask then answers 500 and the frontend shows `An error occurred during analysis.`. The model has no such path.
- Protocol.AnalysisOutcome: a 2xx reply without `analysis_result` is an `Err` in the model, whereas the JavaScript would store `undefined` as the result or the model turn. `Backend.HandleAnalyze` never sends such a reply: every 2xx reply it gives carries an analysis result.
- Protocol.UploadOutcome: a 2xx reply without `document_text` is an `Err` in the model, whereas the JavaScript would store `undefined`. `Backend.HandleUpload` never sends such a reply: every 2xx reply it gives carries document text.
- React rendering, the theme toggle, the info modal and its button, except the render conditions and `disabled` attributes used by `Workflow.Enabled`.
- React's asynchronous state batching and the `useCallback` closure: state updates are immediate and sequential, and the mode a completion handler closes over is kept in the in-flight record.
- Logging: `console.error` (`lexishield-frontend/src/App.js:91`, `128`) and `print` (`backend/app.py:22`, `51`, `54`, `75`, `80`) only write diagnostics and change no state or response, so they are dropped.
- The root `app.py` Streamlit script: a separate UI that calls the AI SDK and PDF library directly.

=== FILE: backend.dfy ===
/**
 The Flask backend's request handling: validation of the `/analyze` and
 `/upload` requests and construction of the prompt sent to the AI service.
 The AI call and the PDF text extraction are parameters of the handlers.
 */
module Backend {
  import opened Wrappers
  import opened Text
  import opened Modes

  /** One element of the `history` array: `{role, parts: [{text}]}`. */
  datatype Entry = Entry(role: string, text: string)

  /** The JSON object posted to `/analyze`; `None` marks an absent key. */
  datatype AnalyzeBody = AnalyzeBody(
    documentText: Option<string>,
    analysisType: Option<string>,
    history: Option<seq<Entry>>,
    question: Option<string>)

  /** The body a handler answers with: one of the handler's JSON objects, or
      the framework's own error page when the handler raises. */
  datatype Body =
    | DocumentTextBody(documentText: string)
    | AnalysisResultBody(analysisResult: string)
    | ErrorBody(error: string)
    | ServerErrorPage

  datatype Response = Response(status: int, body: Body)

  /** A validated `/analyze` request: the mode whose system prompt is used and the user prompt. */
  datatype Job = Job(mode: Mode, prompt: string)

  /** The `file` part of a multipart upload. */
  datatype FilePart = FilePart(filename: string)

  const MissingFieldsError := "Missing document_text or analysis_type"
  const InvalidTypeError := "Invalid analysis type"
  const NoFilePartError := "No file part"
  const NoSelectedFileError := "No selected file"
  const InvalidFileTypeError := "Invalid file type, please upload a PDF"
  const ProcessingErrorPrefix := "Error processing file: "

  /** The strings the AI call returns instead of a reply when it has no key,
      gets a reply without candidates, or exhausts its retries. */
  const AiErrorReplies: set<string> := {
    "Error: API key is not configured on the server.",
    "Error: Unexpected response format from AI.",
    "Error: Could not connect to AI service."
  }

  const AnalysisPreamble := "Please analyze the following document:\n\n"
  const QuestionHeading := "\nNEW QUESTION:\n"
  /** The text before and after the document in the chatbot prompt. */
  const DocumentOpening := "DOCUMENT CONTEXT:\n---\n"
  const HistoryHeading := "\n---\n\nCONVERSATION HISTORY:\n"

  /** The user prompt of every single-shot mode. */
  function AnalysisPrompt(doc: string): (r: string)
    ensures |r| == |AnalysisPreamble| + |doc|
    ensures r[..|AnalysisPreamble|] == AnalysisPreamble
    ensures r[|AnalysisPreamble|..] == doc
  {
    AnalysisPreamble + doc
  }

  /** The fixed opening of the chatbot prompt, enclosing the document. */
  function ChatHeader(doc: string): string {
    DocumentOpening + doc + HistoryHeading
  }

  /** The chatbot header carries the document verbatim between its two fixed parts. */
  lemma ChatHeaderEnclosesDocument(doc: string)
    ensures var r := ChatHeader(doc);
            && |r| == |DocumentOpening| + |doc| + |HistoryHeading|
            && r[..|DocumentOpening|] == DocumentOpening
            && r[|DocumentOpening|..|DocumentOpening| + |doc|] == doc
            && r[|DocumentOpening| + |doc|..] == HistoryHeading
  {
  }

  /** Only the exact role `user` is shown as the user; every other role is the assistant. */
  function RoleLabel(role: string): (r: string)
    ensures r == "User" <==> role == "user"
    ensures r != "User" ==> r == "Assistant"
  {
    if role == "user" then "User" else "Assistant"
  }

  /** One line of the conversation section. */
  function HistoryLine(e: Entry): string {
    RoleLabel(e.role) + ": " + e.text + "\n"
  }

  /** A conversation line is the role label and `: `, then the entry's text
      verbatim, then a newline; it is at least seven characters long. */
  lemma HistoryLineShape(e: Entry)
    ensures var r := HistoryLine(e); var speaker := RoleLabel(e.role);
            && |r| == |speaker| + |e.text| + 3 >= 7
            && r[..|speaker| + 2] == speaker + ": "
            && r[|speaker| + 2..|r| - 1] == e.text
            && r[|r| - 1] == '\n'
  {
  }

  /** The conversation section: one line per entry, in order. */
  function HistoryLines(h: seq<Entry>): string {
    if h == [] then "" else HistoryLine(h[0]) + HistoryLines(h[1..])
  }

  /** The conversation section is empty exactly when the history is, has at
      least seven characters per entry, and otherwise ends with a newline. */
  lemma {:induction false} HistoryLinesShape(h: seq<Entry>)
    ensures HistoryLines(h) == "" <==> h == []
    ensures |HistoryLines(h)| >= 7 * |h|
    ensures h != [] ==> HistoryLines(h)[|HistoryLines(h)| - 1] == '\n'
    decreases |h|
  {
    if h != [] {
      HistoryLineShape(h[0]);
      HistoryLinesShape(h[1..]);
      var line, rest := HistoryLine(h[0]), HistoryLines(h[1..]);
      assert HistoryLines(h) == line + rest;
      if rest == [] {
        assert line + rest == line;
      } else {
        assert (line + rest)[|line + rest| - 1] == rest[|rest| - 1];
      }
    }
  }

  /** The conversation section is compositional, so turn order is preserved. */
  lemma {:induction false} HistoryLinesAppend(h1: seq<Entry>, h2: seq<Entry>)
    ensures HistoryLines(h1 + h2) == HistoryLines(h1) + HistoryLines(h2)
    decreases |h1|
  {
    if h1 == [] {
      assert h1 + h2 == h2;
    } else {
      assert (h1 + h2)[0] == h1[0];
      assert (h1 + h2)[1..] == h1[1..] + h2;
      HistoryLinesAppend(h1[1..], h2);
    }
  }

  /** The line of the last entry closes the conversation section. */
  lemma HistoryLinesSnoc(h: seq<Entry>, e: Entry)
    ensures HistoryLines(h + [e]) == HistoryLines(h) + HistoryLine(e)
  {
    HistoryLinesAppend(h, [e]);
    assert HistoryLines([e]) == HistoryLine(e) + HistoryLines([]);
  }

  /** The chatbot user prompt: header, conversation lines, then the question. */
  function ChatPrompt(doc: string, history: seq<Entry>, question: string): string {
    ChatHeader(doc) + HistoryLines(history) + QuestionHeading + question
  }

  /** The chatbot prompt opens with the header and closes with the question
      heading followed by the question verbatim, whatever the history. */
  lemma ChatPromptShape(doc: string, history: seq<Entry>, question: string)
    ensures var r := ChatPrompt(doc, history, question); var header := ChatHeader(doc);
            && |r| == |header| + |HistoryLines(history)| + |QuestionHeading| + |question|
            && r[..|header|] == header
            && r[|r| - |question| - |QuestionHeading|..|r| - |question|] == QuestionHeading
            && r[|r| - |question|..] == question
  {
    var header, lines := ChatHeader(doc), HistoryLines(history);
    var front := header + lines;
    var r := front + QuestionHeading + question;
    assert r == ChatPrompt(doc, history, question);
    assert front[..|header|] == header;
    assert r[..|header|] == front[..|header|];
    assert r[|front|..|front| + |QuestionHeading|] == QuestionHeading;
    assert r[|front| + |QuestionHeading|..] == question;
  }

  /** Appending an entry to the history inserts its line just before the question heading. */
  lemma ChatPromptSnoc(doc: string, h: seq<Entry>, e: Entry, question: string)
    ensures ChatPrompt(doc, h + [e], question)
            == ChatHeader(doc) + HistoryLines(h) + HistoryLine(e) + QuestionHeading + question
  {
    HistoryLinesSnoc(h, e);
    ConcatAssoc(ChatHeader(doc), HistoryLines(h), HistoryLine(e));
  }

  /** The chatbot prompt as the handler builds it, by appending to a string in a loop. */
  method BuildChatPrompt(doc: string, history: seq<Entry>, question: string) returns (p: string)
    ensures p == ChatPrompt(doc, history, question)
  {
    var header := ChatHeader(doc);
    p := header;
    var i := 0;
    while i < |history|
      invariant 0 <= i <= |history|
      invariant p == header + HistoryLines(history[..i])
    {
      var line := HistoryLine(history[i]);
      assert history[..i + 1] == history[..i] + [history[i]];
      HistoryLinesSnoc(history[..i], history[i]);
      ConcatAssoc(header, HistoryLines(history[..i]), line);
      p := p + line;
      i := i + 1;
    }
    assert history[..i] == history;
    p := p + QuestionHeading + question;
  }

  /** Validation of an `/analyze` body. The missing-field check comes first,
      then the mode lookup; a valid request yields the prompt of its mode. */
  function ValidateAnalyze(data: Option<AnalyzeBody>): (r: Result<Job, string>)
    ensures r == Failure(MissingFieldsError) <==>
              data.None? || data.value.documentText.None? || data.value.analysisType.None?
    ensures r == Failure(InvalidTypeError) <==>
              && data.Some? && data.value.documentText.Some? && data.value.analysisType.Some?
                   && data.value.analysisType.value !in PromptKeys
    ensures r.Failure? ==> r.error == MissingFieldsError || r.error == InvalidTypeError
    ensures r.Success? ==> Tag(r.value.mode) == data.value.analysisType.value
    ensures r.Success? && r.value.mode != Chatbot ==>
              r.value.prompt == AnalysisPrompt(data.value.documentText.value)
    ensures r.Success? && r.value.mode == Chatbot ==>
              r.value.prompt == ChatPrompt(data.value.documentText.value,
                                           data.value.history.GetOr([]),
                                           data.value.question.GetOr(""))
  {
    if data.None? || data.value.documentText.None? || data.value.analysisType.None? then
      Failure(MissingFieldsError)
    else
      var doc := data.value.documentText.value;
      match Parse(data.value.analysisType.value)
      case None => Failure(InvalidTypeError)
      case Some(mode) =>
        if mode == Chatbot then
          var history := data.value.history.GetOr([]);
          var question := data.value.question.GetOr("");
          Success(Job(mode, ChatPrompt(doc, history, question)))
        else
          Success(Job(mode, AnalysisPrompt(doc)))
  }

  /** A body naming a mode is validated into that mode's prompt. */
  lemma ValidBodyPrompt(doc: string, mode: Mode, history: Option<seq<Entry>>, question: Option<string>)
    ensures var r := ValidateAnalyze(Some(AnalyzeBody(Some(doc), Some(Tag(mode)), history, question)));
            && r.Success? && r.value.mode == mode
            && r.value.prompt == if mode == Chatbot then ChatPrompt(doc, history.GetOr([]), question.GetOr(""))
                                 else AnalysisPrompt(doc)
  {
    ParseTag(mode);
  }

  /** A chatbot body without `history` and `question` gets an empty
      conversation section and an empty question. */
  lemma ChatDefaults(doc: string)
    ensures ValidateAnalyze(Some(AnalyzeBody(Some(doc), Some("chatbot"), None, None)))
            == Success(Job(Chatbot, ChatHeader(doc) + QuestionHeading))
  {
    ValidBodyPrompt(doc, Chatbot, None, None);
    assert ChatHeader(doc) + HistoryLines([]) + QuestionHeading + "" == ChatHeader(doc) + QuestionHeading;
  }

  /** The `/analyze` handler. `ai` stands for the AI service call: whatever it
      returns, including its own "Error: ..." strings, is wrapped as a 200 result. */
  function HandleAnalyze(data: Option<AnalyzeBody>, ai: (string, Mode) -> string): (r: Response)
    ensures r.status == 400 <==> ValidateAnalyze(data).Failure?
    ensures r.status == 400 ==> r.body == ErrorBody(ValidateAnalyze(data).error)
    ensures r.status != 400 ==> r.status == 200
    ensures 200 <= r.status < 300 ==> r.body.AnalysisResultBody?
    ensures r.status == 200 ==>
              var job := ValidateAnalyze(data).value;
              r.body == AnalysisResultBody(ai(job.prompt, job.mode))
  {
    match ValidateAnalyze(data)
    case Failure(e) => Response(400, ErrorBody(e))
    case Success(job) => Response(200, AnalysisResultBody(ai(job.prompt, job.mode)))
  }

  /** Validation of an `/upload` request's file parts: only a `file` part whose
      name ends in `.pdf` (case-sensitively) reaches extraction. */
  function ValidateUpload(files: map<string, FilePart>): (r: Result<FilePart, string>)
    ensures r.Success? <==> "file" in files && EndsWith(files["file"].filename, ".pdf")
    ensures r.Success? ==> r.value == files["file"]
    ensures r == Failure(NoFilePartError) <==> "file" !in files
    ensures r == Failure(NoSelectedFileError) <==> "file" in files && files["file"].filename == ""
    ensures r == Failure(InvalidFileTypeError) <==>
              "file" in files && files["file"].filename != "" && !EndsWith(files["file"].filename, ".pdf")
  {
    if "file" !in files then Failure(NoFilePartError)
    else
      var file := files["file"];
      if file.filename == "" then Failure(NoSelectedFileError)
      else if EndsWith(file.filename, ".pdf") then Success(file)
      else Failure(InvalidFileTypeError)
  }

  /** The `/upload` handler. `extract` stands for saving the part and reading
      its text with the PDF library, inside the `try` whose failure message
      becomes a 500. `removeRaises` says whether deleting the temporary file in
      the `finally` block raises: that exception escapes the handler, replaces
      whatever the `try` returned, and the framework answers its own 500 page. */
  function HandleUpload(files: map<string, FilePart>, extract: FilePart -> Result<string, string>,
                        removeRaises: FilePart -> bool): (r: Response)
    ensures r.status == 400 <==> ValidateUpload(files).Failure?
    ensures r.status == 400 ==> r.body == ErrorBody(ValidateUpload(files).error)
    ensures r.status == 200 <==>
              ValidateUpload(files).Success? && !removeRaises(files["file"]) && extract(files["file"]).Success?
    ensures r.status == 200 ==> r.body == DocumentTextBody(extract(files["file"]).value)
    ensures r.body == ServerErrorPage <==> ValidateUpload(files).Success? && removeRaises(files["file"])
    ensures r.status == 500 && r.body != ServerErrorPage ==>
              r.body == ErrorBody(ProcessingErrorPrefix + extract(files["file"]).error)
    ensures r.status in {200, 400, 500}
    ensures 200 <= r.status < 300 ==> r.body.DocumentTextBody?
  {
    match ValidateUpload(files)
    case Failure(e) => Response(400, ErrorBody(e))
    case Success(file) =>
      if removeRaises(file) then Response(500, ServerErrorPage)
      else
        match extract(file)
        case Success(text) => Response(200, DocumentTextBody(text))
        case Failure(msg) => Response(500, ErrorBody(ProcessingErrorPrefix + msg))
  }
}

=== FILE: modes.dfy ===
/**
 The closed set of analysis modes shared by the frontend and the backend:
 the keys of the backend's system-prompt table and the ids of the
 frontend's analysis buttons.
 */
module Modes {
  import opened Wrappers

  datatype Mode = Summary | Jargon | Loopholes | Asymmetry | Chatbot

  /** The wire tag of a mode, as sent in `analysis_type`. */
  function Tag(m: Mode): string {
    match m
    case Summary => "summary"
    case Jargon => "jargon"
    case Loopholes => "loopholes"
    case Asymmetry => "asymmetry"
    case Chatbot => "chatbot"
  }

  /** The key set of the backend's system-prompt table. */
  const PromptKeys: set<string> := {"summary", "jargon", "loopholes", "asymmetry", "chatbot"}

  /** The ids of the frontend's four single-shot analysis buttons, in display
      order; the chatbot has a button of its own that only switches the tab. */
  const ButtonModes: seq<Mode> := [Summary, Jargon, Loopholes, Asymmetry]

  /** Looks a wire tag up in the system-prompt table: found exactly for the
      five keys, and then the mode found carries that tag. */
  function Parse(s: string): (r: Option<Mode>)
    ensures r.Some? <==> s in PromptKeys
    ensures r.Some? ==> Tag(r.value) == s
  {
    if s == "summary" then Some(Summary)
    else if s == "jargon" then Some(Jargon)
    else if s == "loopholes" then Some(Loopholes)
    else if s == "asymmetry" then Some(Asymmetry)
    else if s == "chatbot" then Some(Chatbot)
    else None
  }

  /** Every mode's tag is a key of the prompt table and parses back to the mode. */
  lemma ParseTag(m: Mode)
    ensures Tag(m) in PromptKeys
    ensures Parse(Tag(m)) == Some(m)
  {
  }

  /** The analysis buttons offer exactly the modes other than the chatbot. */
  lemma ButtonModesAreSingleShot(m: Mode)
    ensures m in ButtonModes <==> m != Chatbot
  {
  }
}

=== FILE: protocol.dfy ===
/**
 How the frontend and the backend meet: the frontend's requests as the
 backend receives them, and the backend's responses as the frontend's
 `try`/`catch` sees them (axios resolves on a 2xx status and rejects
 otherwise).
 */
module Protocol {
  import opened Wrappers
  import opened Text
  import opened Modes
  import opened Session
  import Backend

  function RoleTag(r: Role): string {
    match r
    case User => "user"
    case Model => "model"
  }

  function EncodeTurn(t: Turn): Backend.Entry {
    Backend.Entry(RoleTag(t.role), t.text)
  }

  /** The `history` array the frontend sends: one entry per turn, in order. */
  function EncodeHistory(h: seq<Turn>): seq<Backend.Entry> {
    if h == [] then [] else [EncodeTurn(h[0])] + EncodeHistory(h[1..])
  }

  /** Reads a role tag back; only the two tags the frontend writes are roles. */
  function DecodeRole(tag: string): Option<Role> {
    if tag == "user" then Some(User) else if tag == "model" then Some(Model) else None
  }

  /** Reads a `history` array back into turns; `None` if some entry has an unknown role. */
  function DecodeHistory(entries: seq<Backend.Entry>): Option<seq<Turn>> {
    if entries == [] then Some([])
    else
      match (DecodeRole(entries[0].role), DecodeHistory(entries[1..]))
      case (Some(role), Some(rest)) => Some([Turn(role, entries[0].text)] + rest)
      case _ => None
  }

  /** The sent history loses nothing: decoding it gives back the turns. */
  lemma {:induction false} DecodeEncodeHistory(h: seq<Turn>)
    ensures DecodeHistory(EncodeHistory(h)) == Some(h)
    decreases |h|
  {
    if h != [] {
      var e := EncodeHistory(h);
      assert e[0] == EncodeTurn(h[0]);
      assert e[1..] == EncodeHistory(h[1..]);
      DecodeEncodeHistory(h[1..]);
      assert DecodeRole(RoleTag(h[0].role)) == Some(h[0].role);
      assert [h[0]] + h[1..] == h;
    }
  }

  /** Encoding distributes over concatenation, so turn order is kept. */
  lemma {:induction false} EncodeHistoryAppend(h1: seq<Turn>, h2: seq<Turn>)
    ensures EncodeHistory(h1 + h2) == EncodeHistory(h1) + EncodeHistory(h2)
    decreases |h1|
  {
    if h1 == [] {
      assert h1 + h2 == h2;
    } else {
      assert (h1 + h2)[0] == h1[0];
      assert (h1 + h2)[1..] == h1[1..] + h2;
      EncodeHistoryAppend(h1[1..], h2);
    }
  }

  /** The JSON body an analysis payload becomes. */
  function EncodePayload(p: Payload): Backend.AnalyzeBody {
    Backend.AnalyzeBody(
      Some(p.documentText),
      Some(Tag(p.analysisType)),
      match p.history case Some(h) => Some(EncodeHistory(h)) case None => None,
      p.question)
  }

  /** The multipart form an upload becomes: the file under the part name `file`. */
  function EncodeUpload(f: FileHandle): map<string, Backend.FilePart> {
    map["file" := Backend.FilePart(f.name)]
  }

  /** The analysis handler's view of a response: only a 2xx analysis result is a reply. */
  function AnalysisOutcome(resp: Backend.Response): Outcome {
    if 200 <= resp.status < 300 && resp.body.AnalysisResultBody? then Ok(resp.body.analysisResult) else Err
  }

  /** The upload handler's view of a response: only a 2xx document text is a reply. */
  function UploadOutcome(resp: Backend.Response): Outcome {
    if 200 <= resp.status < 300 && resp.body.DocumentTextBody? then Ok(resp.body.documentText) else Err
  }

  /** The frontend's roles render as the backend's labels: `user` as the user,
      `model` as the assistant. */
  lemma TurnRendering(t: Turn)
    ensures t.role == User ==> Backend.HistoryLine(EncodeTurn(t)) == "User: " + t.text + "\n"
    ensures t.role == Model ==> Backend.HistoryLine(EncodeTurn(t)) == "Assistant: " + t.text + "\n"
  {
  }

  /** Every analysis request the frontend sends passes the backend's validation
      and is answered under the mode the user chose. */
  lemma FrontendRequestsValidate(s: State, mode: Mode, question: string)
    requires !s.isLoading && s.documentText != ""
    ensures var p := BeginAnalysis(s, mode, question).request.value.payload;
            && Backend.ValidateAnalyze(Some(EncodePayload(p))).Success?
            && Backend.ValidateAnalyze(Some(EncodePayload(p))).value.mode == mode
  {
    ParseTag(mode);
  }

  /** A single-shot request is answered from the fixed preamble and the document text alone. */
  lemma SingleShotPrompt(s: State, mode: Mode)
    requires !s.isLoading && s.documentText != "" && mode != Chatbot
    ensures var p := BeginAnalysis(s, mode, "").request.value.payload;
            Backend.ValidateAnalyze(Some(EncodePayload(p))).value.prompt
              == Backend.AnalysisPreamble + s.documentText
  {
    ParseTag(mode);
  }

  /** The body of a chatbot request: the extended history and the question. */
  lemma ChatRequestBody(s: State, q: string)
    requires !s.isLoading && s.documentText != ""
    ensures EncodePayload(BeginAnalysis(s, Chatbot, q).request.value.payload)
            == Backend.AnalyzeBody(Some(s.documentText), Some("chatbot"),
                                   Some(EncodeHistory(s.chatHistory) + [EncodeTurn(Turn(User, q))]), Some(q))
  {
    var h := s.chatHistory + [Turn(User, q)];
    assert BeginAnalysis(s, Chatbot, q).request.value.payload == Payload(s.documentText, Chatbot, Some(h), Some(q));
    EncodeHistoryAppend(s.chatHistory, [Turn(User, q)]);
    assert EncodeHistory([Turn(User, q)]) == [EncodeTurn(Turn(User, q))] + EncodeHistory([]);
    assert EncodeHistory(h) == EncodeHistory(s.chatHistory) + [EncodeTurn(Turn(User, q))];
  }

  /** The backend renders a frontend user turn as the line `User: q`. */
  lemma UserTurnPrompt(doc: string, prior: seq<Backend.Entry>, q: string)
    ensures Backend.ChatPrompt(doc, prior + [EncodeTurn(Turn(User, q))], q)
            == Backend.ChatHeader(doc) + Backend.HistoryLines(prior) + "User: " + q + "\n" + Backend.QuestionHeading + q
  {
    var turn := EncodeTurn(Turn(User, q));
    var start := Backend.ChatHeader(doc) + Backend.HistoryLines(prior);
    var line := Backend.HistoryLine(turn);
    assert line == "User: " + q + "\n";
    assert start + line == start + "User: " + q + "\n" by {
      ConcatAssoc(start, "User: " + q, "\n");
      ConcatAssoc(start, "User: ", q);
    }
    Backend.ChatPromptSnoc(doc, prior, turn, q);
  }

  /** The chatbot prompt the backend builds from a frontend request: since the
      sent history already ends with the new user turn and the backend appends
      the question once more, the conversation section ends with `User: q` and
      `q` is repeated under the question heading. */
  lemma ChatPromptRepeatsQuestion(s: State, q: string)
    requires !s.isLoading && s.documentText != ""
    ensures var p := BeginAnalysis(s, Chatbot, q).request.value.payload;
            Backend.ValidateAnalyze(Some(EncodePayload(p))).value.prompt
              == Backend.ChatHeader(s.documentText)
                 + Backend.HistoryLines(EncodeHistory(s.chatHistory))
                 + "User: " + q + "\n"
                 + Backend.QuestionHeading + q
  {
    var doc := s.documentText;
    var prior := EncodeHistory(s.chatHistory);
    var turn := EncodeTurn(Turn(User, q));
    ChatRequestBody(s, q);
    Backend.ValidBodyPrompt(doc, Chatbot, Some(prior + [turn]), Some(q));
    UserTurnPrompt(doc, prior, q);
  }

  /** Whatever the AI call returns for a frontend request reaches the
      frontend as a successful reply, its "Error: ..." strings included. */
  lemma AiReplyIsSuccess(s: State, mode: Mode, question: string, ai: (string, Mode) -> string)
    requires !s.isLoading && s.documentText != ""
    ensures var p := BeginAnalysis(s, mode, question).request.value.payload;
            var job := Backend.ValidateAnalyze(Some(EncodePayload(p))).value;
            AnalysisOutcome(Backend.HandleAnalyze(Some(EncodePayload(p)), ai)) == Ok(ai(job.prompt, mode))
  {
    FrontendRequestsValidate(s, mode, question);
  }

  /** So an AI failure string lands in the chat as a model turn, with no error shown. */
  lemma AiErrorBecomesModelTurn(s: State, q: string, reply: string)
    requires !s.isLoading && s.documentText != ""
    requires reply in Backend.AiErrorReplies
    ensures var st := BeginAnalysis(s, Chatbot, q);
            var ai := (prompt: string, m: Mode) => reply;
            var resp := Backend.HandleAnalyze(Some(EncodePayload(st.request.value.payload)), ai);
            var done := CompleteAnalysis(st.next, Chatbot, AnalysisOutcome(resp));
            && done.chatHistory == s.chatHistory + [Turn(User, q), Turn(Model, reply)]
            && done.error == ""
  {
    var ai := (prompt: string, m: Mode) => reply;
    AiReplyIsSuccess(s, Chatbot, q, ai);
  }

  /** The analysis handler sees a reply exactly when the backend accepts the
      request, and the reply is what the AI call returned. */
  lemma AnalyzeOutcomeIff(data: Option<Backend.AnalyzeBody>, ai: (string, Mode) -> string)
    ensures var o := AnalysisOutcome(Backend.HandleAnalyze(data, ai));
            o.Ok? <==> Backend.ValidateAnalyze(data).Success?
    ensures var o := AnalysisOutcome(Backend.HandleAnalyze(data, ai));
            o.Ok? ==> o.text == ai(Backend.ValidateAnalyze(data).value.prompt,
                                   Backend.ValidateAnalyze(data).value.mode)
  {
  }

  /** An upload reaches the frontend as document text exactly when the file
      name ends in `.pdf`, the extraction succeeds and deleting the temporary
      file does not raise. */
  lemma UploadSucceedsIff(f: FileHandle, extract: Backend.FilePart -> Result<string, string>,
                          removeRaises: Backend.FilePart -> bool)
    ensures var o := UploadOutcome(Backend.HandleUpload(EncodeUpload(f), extract, removeRaises));
            o.Ok? <==> && EndsWith(f.name, ".pdf") && !removeRaises(Backend.FilePart(f.name))
                       && extract(Backend.FilePart(f.name)).Success?
    ensures var o := UploadOutcome(Backend.HandleUpload(EncodeUpload(f), extract, removeRaises));
            o.Ok? ==> o.text == extract(Backend.FilePart(f.name)).value
  {
  }

  /** When deleting the temporary file raises, the upload fails even if the
      text was extracted: the framework's 500 page replaces the reply, and the
      frontend shows its upload error. */
  lemma RemoveFailureLosesText(f: FileHandle, extract: Backend.FilePart -> Result<string, string>,
                               removeRaises: Backend.FilePart -> bool)
    requires f.name != "" && EndsWith(f.name, ".pdf") && removeRaises(Backend.FilePart(f.name))
    ensures Backend.HandleUpload(EncodeUpload(f), extract, removeRaises) == Backend.Response(500, Backend.ServerErrorPage)
    ensures UploadOutcome(Backend.HandleUpload(EncodeUpload(f), extract, removeRaises)) == Err
  {
  }

  /** The frontend stages a file by its declared media type, the backend by
      its name: every file declared `application/pdf` whose non-empty name does
      not end in lower-case `.pdf` is staged and then rejected, whatever the
      extraction and the clean-up would have given. */
  lemma PdfTypeWithoutPdfNameRejected(s: State, f: FileHandle, extract: Backend.FilePart -> Result<string, string>,
                                      removeRaises: Backend.FilePart -> bool)
    requires f.mediaType == PdfMediaType && f.name != "" && !EndsWith(f.name, ".pdf")
    ensures SelectFile(s, Some(f)).file == Some(f)
    ensures Backend.HandleUpload(EncodeUpload(f), extract, removeRaises)
            == Backend.Response(400, Backend.ErrorBody(Backend.InvalidFileTypeError))
    ensures UploadOutcome(Backend.HandleUpload(EncodeUpload(f), extract, removeRaises)) == Err
  {
  }

  /** For instance a PDF named `REPORT.PDF`. */
  lemma UppercasePdfNameRejected(s: State)
    ensures var f := FileHandle("REPORT.PDF", PdfMediaType);
            && SelectFile(s, Some(f)).file == Some(f)
            && Backend.HandleUpload(EncodeUpload(f), (p: Backend.FilePart) => Success(""), (p: Backend.FilePart) => false)
               == Backend.Response(400, Backend.ErrorBody(Backend.InvalidFileTypeError))
  {
    var name := "REPORT.PDF";
    assert name[|name| - 4..] == ".PDF";
    PdfTypeWithoutPdfNameRejected(s, FileHandle(name, PdfMediaType), (p: Backend.FilePart) => Success(""),
                                  (p: Backend.FilePart) => false);
  }
}

=== FILE: session.dfy ===
/**
 The React `App` component's session state and its event handlers, as pure
 transitions. Each asynchronous handler is split into a synchronous Begin
 step, which returns the request it would issue, and a Complete step, which
 applies the request's outcome. The network itself is an abstract input.
 */
module Session {
  import opened Wrappers
  import opened Text
  import opened Modes

  datatype Role = User | Model

  /** One chat message: `{role, parts: [{text}]}`. */
  datatype Turn = Turn(role: Role, text: string)

  /** A file from the file picker, with the media type the browser declares for it. */
  datatype FileHandle = FileHandle(name: string, mediaType: string)

  /** The component's state hooks (the theme and the info modal are not modelled).
      `currentAnalysis` is `None` for the empty string; `error` is `""` when no error is shown. */
  datatype State = State(
    file: Option<FileHandle>,
    documentText: string,
    analysisResult: string,
    currentAnalysis: Option<Mode>,
    isLoading: bool,
    error: string,
    chatHistory: seq<Turn>,
    userQuestion: string)

  /** How an awaited request ended, as the `try`/`catch` sees it. */
  datatype Outcome = Ok(text: string) | Err

  /** The JSON payload of an analysis request; `None` marks a key that is not set. */
  datatype Payload = Payload(
    documentText: string,
    analysisType: Mode,
    history: Option<seq<Turn>>,
    question: Option<string>)

  datatype Request = UploadRequest(file: FileHandle) | AnalyzeRequest(payload: Payload)

  /** The state after a Begin step, and the request it issues, if any. */
  datatype Step = Step(next: State, request: Option<Request>)

  const PdfMediaType := "application/pdf"
  const InvalidPdfError := "Please select a valid PDF file."
  const NoFileError := "No file selected."
  const UploadFailedError := "Error uploading or processing file. Please try again."
  const NoDocumentError := "Please upload a document first."
  const AnalysisFailedError := "An error occurred during analysis."

  /** The state of a freshly mounted component: idle, with nothing staged,
      extracted, analysed, asked or reported. */
  function Init(): (s: State)
    ensures s.file.None? && !s.isLoading && s.error == ""
    ensures s.documentText == "" && s.analysisResult == "" && s.currentAnalysis.None?
    ensures s.chatHistory == [] && s.userQuestion == ""
  {
    State(None, "", "", None, false, "", [], "")
  }

  /** A model turn only ever directly follows a user turn. */
  predicate ChatWellFormed(h: seq<Turn>) {
    forall i :: 0 <= i < |h| && h[i].role == Model ==> 0 < i && h[i - 1].role == User
  }

  /** The file input's change handler: a selection is staged iff it is declared
      as a PDF; a missing or rejected selection unstages any earlier file.
      Nothing but the staged file and the error message changes. */
  function SelectFile(s: State, selected: Option<FileHandle>): (r: State)
    ensures r.file.Some? <==> selected.Some? && selected.value.mediaType == PdfMediaType
    ensures r.file.Some? ==> r.file == selected && r.error == ""
    ensures r.file.None? ==> r.error == InvalidPdfError
    ensures r == s.(file := r.file, error := r.error)
  {
    if selected.Some? && selected.value.mediaType == PdfMediaType then
      s.(file := selected, error := "")
    else
      s.(file := None, error := InvalidPdfError)
  }

  /** The upload button's handler up to the awaited request. Without a staged
      file only the error changes and nothing is sent; otherwise every piece of
      derived state is reset and the staged file is sent. */
  function BeginUpload(s: State): (r: Step)
    requires !s.isLoading
    ensures r.request.Some? <==> s.file.Some?
    ensures s.file.None? ==> r.next == s.(error := NoFileError)
    ensures s.file.Some? ==> r.request.value == UploadRequest(s.file.value)
    ensures s.file.Some? ==>
              && r.next.isLoading && r.next.error == "" && r.next.documentText == ""
              && r.next.analysisResult == "" && r.next.currentAnalysis.None? && r.next.chatHistory == []
              && r.next.file == s.file && r.next.userQuestion == s.userQuestion
  {
    if s.file.None? then
      Step(s.(error := NoFileError), None)
    else
      var next := s.(isLoading := true, error := "", documentText := "", analysisResult := "",
                     currentAnalysis := None, chatHistory := []);
      Step(next, Some(UploadRequest(s.file.value)))
  }

  /** The upload handler after the request settles: loading ends on every path,
      a reply fills the document text and a failure sets the upload error. */
  function CompleteUpload(s: State, outcome: Outcome): (r: State)
    ensures !r.isLoading
    ensures outcome.Ok? ==> r == s.(isLoading := false, documentText := outcome.text)
    ensures outcome.Err? ==> r == s.(isLoading := false, error := UploadFailedError)
  {
    match outcome
    case Ok(text) => s.(isLoading := false, documentText := text)
    case Err => s.(isLoading := false, error := UploadFailedError)
  }

  /** `performAnalysis` up to the awaited request. Without document text only
      the error changes and nothing is sent. Otherwise, for every mode, loading
      starts, the error and the previous result are cleared and the mode becomes
      current; a single-shot payload carries only the text and the mode, while
      the chatbot first appends the user turn and sends the extended history. */
  function BeginAnalysis(s: State, mode: Mode, question: string): (r: Step)
    requires !s.isLoading
    ensures r.request.Some? <==> s.documentText != ""
    ensures s.documentText == "" ==> r.next == s.(error := NoDocumentError)
    ensures s.documentText != "" ==>
              && r.next.isLoading && r.next.error == "" && r.next.analysisResult == ""
              && r.next.currentAnalysis == Some(mode)
              && r.next.file == s.file && r.next.documentText == s.documentText
              && r.request.value.AnalyzeRequest?
              && r.request.value.payload.documentText == s.documentText
              && r.request.value.payload.analysisType == mode
    ensures s.documentText != "" && mode != Chatbot ==>
              && r.request.value.payload.history.None? && r.request.value.payload.question.None?
              && r.next.chatHistory == s.chatHistory && r.next.userQuestion == s.userQuestion
    ensures s.documentText != "" && mode == Chatbot ==>
              && r.next.chatHistory == s.chatHistory + [Turn(User, question)]
              && r.request.value.payload.history == Some(r.next.chatHistory)
              && r.request.value.payload.question == Some(question)
              && r.next.userQuestion == ""
  {
    if s.documentText == "" then
      Step(s.(error := NoDocumentError), None)
    else
      var started := s.(isLoading := true, error := "", analysisResult := "", currentAnalysis := Some(mode));
      if mode == Chatbot then
        var history := s.chatHistory + [Turn(User, question)];
        Step(started.(chatHistory := history, userQuestion := ""),
             Some(AnalyzeRequest(Payload(s.documentText, mode, Some(history), Some(question)))))
      else
        Step(started, Some(AnalyzeRequest(Payload(s.documentText, mode, None, None))))
  }

  /** `performAnalysis` after the request settles. A chatbot reply appends
      exactly one model turn, a single-shot reply becomes the result, a failure
      only sets the analysis error; loading ends on every path. */
  function CompleteAnalysis(s: State, mode: Mode, outcome: Outcome): (r: State)
    ensures !r.isLoading
    ensures outcome.Ok? && mode == Chatbot ==>
              r == s.(isLoading := false, chatHistory := s.chatHistory + [Turn(Model, outcome.text)])
    ensures outcome.Ok? && mode != Chatbot ==>
              r == s.(isLoading := false, analysisResult := outcome.text)
    ensures outcome.Err? ==> r == s.(isLoading := false, error := AnalysisFailedError)
  {
    match outcome
    case Ok(text) =>
      if mode == Chatbot then s.(isLoading := false, chatHistory := s.chatHistory + [Turn(Model, text)])
      else s.(isLoading := false, analysisResult := text)
    case Err => s.(isLoading := false, error := AnalysisFailedError)
  }

  /** The chat form's submit handler: a question that is blank once trimmed
      changes nothing; otherwise the trimmed question is asked of the chatbot. */
  function SubmitChat(s: State): (r: Step)
    requires !s.isLoading
    ensures Trim(s.userQuestion) == "" ==> r == Step(s, None)
    ensures Trim(s.userQuestion) != "" && s.documentText != "" ==>
              && r.next.chatHistory == s.chatHistory + [Turn(User, Trim(s.userQuestion))]
              && r.request.Some? && r.request.value.AnalyzeRequest?
              && r.request.value.payload.question == Some(Trim(s.userQuestion))
              && r.next.currentAnalysis == Some(Chatbot) && r.next.userQuestion == ""
    ensures Trim(s.userQuestion) != "" && s.documentText == "" ==> r == Step(s.(error := NoDocumentError), None)
  {
    var q := Trim(s.userQuestion);
    if q != "" then BeginAnalysis(s, Chatbot, q) else Step(s, None)
  }

  /** The "Legal Chatbot" tab: shows the chat without asking anything. */
  function SelectChatbotTab(s: State): (r: State)
    requires !s.isLoading
    ensures r.currentAnalysis == Some(Chatbot) && r.analysisResult == ""
    ensures r.chatHistory == s.chatHistory
    ensures r == s.(currentAnalysis := r.currentAnalysis, analysisResult := r.analysisResult)
  {
    s.(currentAnalysis := Some(Chatbot), analysisResult := "")
  }

  /** Typing into the question box replaces the question and nothing else. */
  function EditQuestion(s: State, text: string): (r: State)
    requires !s.isLoading
    ensures r.userQuestion == text
    ensures r == s.(userQuestion := r.userQuestion)
  {
    s.(userQuestion := text)
  }
}

=== FILE: text.dfy ===
/**
 String helpers whose exact semantics the application relies on:
 ECMAScript's `String.prototype.trim` (used on the chat question) and
 Python's case-sensitive `str.endswith` (used on upload file names).
 It also holds a few generic facts about regrouping sequence
 concatenations, which the prompt and chat-history proofs share.
 */
module Text {

  /** The ECMAScript WhiteSpace and LineTerminator code points, which is exactly
      the set `trim` removes from both ends of a string. */
  predicate IsWhitespace(c: char) {
    || c == '\t' || c == '\n' || c == '\U{B}' || c == '\U{C}' || c == '\r' || c == ' '
    || c == '\U{A0}' || c == '\U{1680}' || ('\U{2000}' <= c <= '\U{200A}')
    || c == '\U{2028}' || c == '\U{2029}' || c == '\U{202F}' || c == '\U{205F}'
    || c == '\U{3000}' || c == '\U{FEFF}'
  }

  predicate AllWhitespace(s: string) {
    forall i :: 0 <= i < |s| ==> IsWhitespace(s[i])
  }

  /** A string that `trim` leaves alone: empty, or not starting or ending in whitespace. */
  predicate IsTrimmed(s: string) {
    s == [] || (!IsWhitespace(s[0]) && !IsWhitespace(s[|s| - 1]))
  }

  /** Drops the leading whitespace: the result is a suffix of `s`, everything
      dropped is whitespace, and the result does not start with whitespace. */
  function TrimStart(s: string): (r: string)
    ensures |r| <= |s| && r == s[|s| - |r|..]
    ensures forall i :: 0 <= i < |s| - |r| ==> IsWhitespace(s[i])
    ensures r == [] || !IsWhitespace(r[0])
  {
    if |s| > 0 && IsWhitespace(s[0]) then TrimStart(s[1..]) else s
  }

  /** Drops the trailing whitespace: the result is a prefix of `s`, everything
      dropped is whitespace, and the result does not end with whitespace. */
  function TrimEnd(s: string): (r: string)
    ensures |r| <= |s| && r == s[..|r|]
    ensures forall i :: |r| <= i < |s| ==> IsWhitespace(s[i])
    ensures r == [] || !IsWhitespace(r[|r| - 1])
  {
    if |s| > 0 && IsWhitespace(s[|s| - 1]) then TrimEnd(s[..|s| - 1]) else s
  }

  /** `String.prototype.trim`. */
  function Trim(s: string): (r: string)
    ensures |r| <= |s|
    ensures IsTrimmed(r)
    ensures r == [] <==> AllWhitespace(s)
  {
    var t := TrimStart(s);
    var r := TrimEnd(t);
    r
  }

  lemma {:induction false} TrimStartSkipsWhitespace(a: string, t: string)
    requires AllWhitespace(a)
    ensures TrimStart(a + t) == TrimStart(t)
    decreases |a|
  {
    if a == [] {
      assert a + t == t;
    } else {
      assert (a + t)[0] == a[0];
      assert (a + t)[1..] == a[1..] + t;
      TrimStartSkipsWhitespace(a[1..], t);
    }
  }

  lemma {:induction false} TrimEndSkipsWhitespace(t: string, b: string)
    requires AllWhitespace(b)
    ensures TrimEnd(t + b) == TrimEnd(t)
    decreases |b|
  {
    if b == [] {
      assert t + b == t;
    } else {
      var b' := b[..|b| - 1];
      assert (t + b)[|t + b| - 1] == b[|b| - 1];
      assert (t + b)[..|t + b| - 1] == t + b';
      TrimEndSkipsWhitespace(t, b');
    }
  }

  /** Reference definition of `trim`: whenever `s` splits into whitespace, a
      trimmed core and whitespace, `Trim` returns exactly that core. */
  lemma TrimCharacterization(a: string, m: string, b: string)
    requires AllWhitespace(a) && AllWhitespace(b) && IsTrimmed(m)
    ensures Trim(a + m + b) == m
  {
    assert a + m + b == a + (m + b);
    TrimStartSkipsWhitespace(a, m + b);
    if m == [] {
      assert m + b == b;
      assert TrimStart(b) == [];
    } else {
      assert (m + b)[0] == m[0];
      assert TrimStart(m + b) == m + b;
      TrimEndSkipsWhitespace(m, b);
    }
  }

  /** `trim` leaves a trimmed string alone. */
  lemma TrimOfTrimmed(m: string)
    requires IsTrimmed(m)
    ensures Trim(m) == m
  {
    assert TrimStart(m) == m;
    assert TrimEnd(m) == m;
  }

  /** Trimming twice is trimming once. */
  lemma TrimIdempotent(s: string)
    ensures Trim(Trim(s)) == Trim(s)
  {
    TrimOfTrimmed(Trim(s));
  }

  /** Concatenation regroups freely; stated once so that proofs over long
      string literals need not rediscover it. */
  lemma ConcatAssoc<T>(a: seq<T>, b: seq<T>, c: seq<T>)
    ensures a + (b + c) == a + b + c
  {
  }

  /** Two single elements appended one after the other are a pair. */
  lemma AppendTwo<T>(h: seq<T>, x: T, y: T)
    ensures h + [x] + [y] == h + [x, y]
  {
    ConcatAssoc(h, [x], [y]);
    assert [x] + [y] == [x, y];
  }

  /** Two pairs appended one after the other are the four elements in order. */
  lemma AppendPairs<T>(h: seq<T>, x1: T, y1: T, x2: T, y2: T)
    ensures h + [x1, y1] + [x2, y2] == h + [x1, y1, x2, y2]
  {
    ConcatAssoc(h, [x1, y1], [x2, y2]);
    assert [x1, y1] + [x2, y2] == [x1, y1, x2, y2];
  }

  /** Python's `str.endswith`: a case-sensitive suffix test. */
  predicate EndsWith(s: string, suffix: string) {
    |suffix| <= |s| && s[|s| - |suffix|..] == suffix
  }

  /** `EndsWith` holds exactly of the strings built by appending the suffix. */
  lemma EndsWithAppend(p: string, suffix: string)
    ensures EndsWith(p + suffix, suffix)
  {
    assert (p + suffix)[|p|..] == suffix;
  }

  lemma EndsWithSplit(s: string, suffix: string)
    requires EndsWith(s, suffix)
    ensures s == s[..|s| - |suffix|] + suffix
  {
  }
}

=== FILE: workflow.dfy ===
/**
 The component as the user drives it: the events the rendered page offers,
 when it offers them (which controls are rendered and which are `disabled`),
 and the one request that can be in flight. Over this event model the
 session keeps an invariant that relates loading, results and chat history.
 */
module Workflow {
  import opened Wrappers
  import opened Text
  import opened Modes
  import opened Session

  /** The request whose completion handler has not run yet, with the mode its
      `performAnalysis` closure was called with. */
  datatype Pending = UploadInFlight | AnalysisInFlight(mode: Mode)

  datatype World = World(state: State, pending: Option<Pending>)

  datatype Event =
    | ChooseFile(selected: Option<FileHandle>)
    | TypeQuestion(text: string)
    | ClickUpload
    | ClickMode(mode: Mode)
    | ClickChatbotTab
    | SendQuestion
    | UploadSettles(outcome: Outcome)
    | AnalysisSettles(outcome: Outcome)

  /** Whether the page lets the event happen now. The file input is never
      disabled; the upload button needs a staged file; the analysis controls
      exist only once there is document text, and the chat form only on the
      chatbot tab; every button and the question box are disabled while loading;
      a completion needs its request in flight. */
  function Enabled(w: World, e: Event): (b: bool)
    ensures e.ChooseFile? ==> b
    ensures b && (e.TypeQuestion? || e.ClickUpload? || e.ClickMode? || e.ClickChatbotTab? || e.SendQuestion?) ==>
              !w.state.isLoading
    ensures b && (e.ClickMode? || e.ClickChatbotTab? || e.SendQuestion?) ==> w.state.documentText != ""
    ensures b && e.ClickMode? ==> e.mode != Chatbot
    ensures b && (e.UploadSettles? || e.AnalysisSettles?) ==> w.pending.Some?
  {
    var s := w.state;
    match e
    case ChooseFile(_) => true
    case TypeQuestion(_) => s.documentText != "" && s.currentAnalysis == Some(Chatbot) && !s.isLoading
    case ClickUpload => s.file.Some? && !s.isLoading
    case ClickMode(m) => m in ButtonModes && s.documentText != "" && !s.isLoading
    case ClickChatbotTab => s.documentText != "" && !s.isLoading
    case SendQuestion =>
      s.documentText != "" && s.currentAnalysis == Some(Chatbot) && !s.isLoading && Trim(s.userQuestion) != ""
    case UploadSettles(_) => w.pending == Some(UploadInFlight)
    case AnalysisSettles(_) => w.pending.Some? && w.pending.value.AnalysisInFlight?
  }

  /** The pending operation a Begin step leaves behind. */
  function PendingAfter(st: Session.Step, p: Pending): Option<Pending> {
    if st.request.Some? then Some(p) else None
  }

  /** Applies one enabled event. Choosing a file, typing and the chatbot tab
      leave the in-flight request alone; the upload button starts the upload;
      an analysis button runs the analysis of its mode with an empty question;
      Send runs the chatbot analysis with the trimmed question; a completion
      settles the request in flight. */
  function Next(w: World, e: Event): (r: World)
    requires Enabled(w, e)
    ensures e.ChooseFile? || e.TypeQuestion? || e.ClickChatbotTab? ==> r.pending == w.pending
    ensures e.ClickUpload? ==> r == World(BeginUpload(w.state).next, Some(UploadInFlight))
    ensures e.ClickMode? ==> r == World(BeginAnalysis(w.state, e.mode, "").next, Some(AnalysisInFlight(e.mode)))
    ensures e.SendQuestion? ==>
              r == World(BeginAnalysis(w.state, Chatbot, Trim(w.state.userQuestion)).next, Some(AnalysisInFlight(Chatbot)))
    ensures e.UploadSettles? || e.AnalysisSettles? ==> r.pending.None? && !r.state.isLoading
  {
    var s := w.state;
    match e
    case ChooseFile(f) => World(SelectFile(s, f), w.pending)
    case TypeQuestion(t) => World(EditQuestion(s, t), w.pending)
    case ClickUpload =>
      var st := BeginUpload(s);
      World(st.next, PendingAfter(st, UploadInFlight))
    case ClickMode(m) =>
      var st := BeginAnalysis(s, m, "");
      World(st.next, PendingAfter(st, AnalysisInFlight(m)))
    case ClickChatbotTab => World(SelectChatbotTab(s), w.pending)
    case SendQuestion =>
      var st := SubmitChat(s);
      World(st.next, PendingAfter(st, AnalysisInFlight(Chatbot)))
    case UploadSettles(o) => World(CompleteUpload(s, o), None)
    case AnalysisSettles(o) => World(CompleteAnalysis(s, w.pending.value.mode, o), None)
  }

  /** Applies a sequence of events; `None` if some event is not enabled when it comes. */
  function Run(w: World, es: seq<Event>): Option<World>
    decreases |es|
  {
    if es == [] then Some(w)
    else if Enabled(w, es[0]) then Run(Next(w, es[0]), es[1..])
    else None
  }

  /** What every reachable world satisfies. */
  ghost predicate Inv(w: World) {
    var s := w.state;
    // the loading flag is exactly "a request is in flight"
    && (s.isLoading <==> w.pending.Some?)
    && ChatWellFormed(s.chatHistory)
    // without document text there is no derived analysis state
    && (s.documentText == "" ==> s.chatHistory == [] && s.analysisResult == "" && s.currentAnalysis.None?)
    // a result is only ever shown for a single-shot mode
    && (s.analysisResult != "" ==> s.currentAnalysis.Some? && s.currentAnalysis.value != Chatbot)
    && (w.pending == Some(UploadInFlight) ==> s.documentText == "")
    && (w.pending.Some? && w.pending.value.AnalysisInFlight? ==>
          && s.documentText != ""
          && s.currentAnalysis == Some(w.pending.value.mode)
          && s.analysisResult == ""
          && (w.pending.value.mode == Chatbot ==>
                |s.chatHistory| > 0 && s.chatHistory[|s.chatHistory| - 1].role == User))
  }

  lemma InitInv()
    ensures Inv(World(Init(), None))
  {
  }

  /** Appending a model turn right after a user turn keeps the chat well formed. */
  lemma {:induction false} AppendModelTurn(h: seq<Turn>, text: string)
    requires ChatWellFormed(h)
    requires |h| > 0 && h[|h| - 1].role == User
    ensures ChatWellFormed(h + [Turn(Model, text)])
  {
    var h' := h + [Turn(Model, text)];
    forall i | 0 <= i < |h'| && h'[i].role == Model
      ensures 0 < i && h'[i - 1].role == User
    {
      if i < |h| {
        assert h'[i] == h[i];
        assert h'[i - 1] == h[i - 1];
      }
    }
  }

  lemma {:induction false} AppendUserTurn(h: seq<Turn>, text: string)
    requires ChatWellFormed(h)
    ensures ChatWellFormed(h + [Turn(User, text)])
  {
    var h' := h + [Turn(User, text)];
    forall i | 0 <= i < |h'| && h'[i].role == Model
      ensures 0 < i && h'[i - 1].role == User
    {
      assert i < |h|;
      assert h'[i] == h[i];
      assert h'[i - 1] == h[i - 1];
    }
  }

  lemma StepPreservesInv(w: World, e: Event)
    requires Inv(w) && Enabled(w, e)
    ensures Inv(Next(w, e))
  {
    var s := w.state;
    match e
    case SendQuestion =>
      AppendUserTurn(s.chatHistory, Trim(s.userQuestion));
    case AnalysisSettles(o) =>
      if o.Ok? && w.pending.value.mode == Chatbot {
        AppendModelTurn(s.chatHistory, o.text);
      }
    case ClickUpload =>
    case _ =>
  }

  /** Every world reachable by enabled events from one that satisfies the
      invariant satisfies it too. */
  lemma {:induction false} RunPreservesInv(w: World, es: seq<Event>)
    requires Inv(w)
    ensures Run(w, es).Some? ==> Inv(Run(w, es).value)
    decreases |es|
  {
    if es != [] && Enabled(w, es[0]) {
      StepPreservesInv(w, es[0]);
      RunPreservesInv(Next(w, es[0]), es[1..]);
    }
  }

  /** Every world the page can reach from a fresh mount satisfies the invariant. */
  lemma ReachableInv(es: seq<Event>)
    ensures Run(World(Init(), None), es).Some? ==> Inv(Run(World(Init(), None), es).value)
  {
    InitInv();
    RunPreservesInv(World(Init(), None), es);
  }

  /** Between uploads the chat history only grows: the only event that can
      shrink it is the upload button, and only when a file is staged. */
  lemma HistoryAppendOnly(w: World, e: Event)
    requires Enabled(w, e)
    ensures e != ClickUpload ==> w.state.chatHistory <= Next(w, e).state.chatHistory
    ensures e == ClickUpload ==> Next(w, e).state.chatHistory == []
  {
  }

  /** Every settled request leaves the page idle. */
  lemma SettlingEndsLoading(w: World, e: Event)
    requires Inv(w) && Enabled(w, e) && (e.UploadSettles? || e.AnalysisSettles?)
    ensures !Next(w, e).state.isLoading && Next(w, e).pending.None?
    ensures e.UploadSettles? && e.outcome.Err? ==> Next(w, e).state.documentText == ""
    ensures e.AnalysisSettles? && e.outcome.Err? ==> Next(w, e).state.analysisResult == ""
  {
  }

  /** A failed chatbot request keeps the user's turn, adds no model turn, and shows the error. */
  lemma FailedChatKeepsQuestion(w: World)
    requires Inv(w) && w.pending == Some(AnalysisInFlight(Chatbot))
    ensures var w' := Next(w, AnalysisSettles(Err));
            && w'.state.chatHistory == w.state.chatHistory
            && w'.state.chatHistory[|w'.state.chatHistory| - 1].role == User
            && w'.state.error == AnalysisFailedError
  {
  }

  /** Running two event sequences back to back is running their concatenation. */
  lemma {:induction false} RunAppend(w: World, es1: seq<Event>, es2: seq<Event>)
    requires Run(w, es1).Some?
    ensures Run(w, es1 + es2) == Run(Run(w, es1).value, es2)
    decreases |es1|
  {
    if es1 == [] {
      assert es1 + es2 == es2;
    } else {
      assert (es1 + es2)[0] == es1[0];
      assert (es1 + es2)[1..] == es1[1..] + es2;
      RunAppend(Next(w, es1[0]), es1[1..], es2);
    }
  }

  /** Running three enabled events in turn. */
  lemma Run3(w: World, e1: Event, e2: Event, e3: Event)
    requires Enabled(w, e1) && Enabled(Next(w, e1), e2) && Enabled(Next(Next(w, e1), e2), e3)
    ensures Run(w, [e1, e2, e3]) == Some(Next(Next(Next(w, e1), e2), e3))
  {
    var w1 := Next(w, e1);
    var w2 := Next(w1, e2);
    var w3 := Next(w2, e3);
    assert [e3][1..] == [];
    assert Run(w2, [e3]) == Run(w3, []) == Some(w3);
    assert [e2, e3][1..] == [e3];
    assert Run(w1, [e2, e3]) == Some(w3);
    assert [e1, e2, e3][1..] == [e2, e3];
  }

  /** Typing on the chatbot tab only fills the question box. */
  lemma TypeStep(w: World, t: string)
    requires !w.state.isLoading && w.pending.None?
    requires w.state.documentText != "" && w.state.currentAnalysis == Some(Chatbot)
    ensures Enabled(w, TypeQuestion(t))
    ensures Next(w, TypeQuestion(t)) == World(w.state.(userQuestion := t), None)
  {
  }

  /** Sending a question that is not blank once trimmed appends the trimmed
      question as a user turn and leaves the chatbot request in flight. */
  lemma SendStep(w: World)
    requires !w.state.isLoading && w.pending.None?
    requires w.state.documentText != "" && w.state.currentAnalysis == Some(Chatbot)
    requires Trim(w.state.userQuestion) != ""
    ensures Enabled(w, SendQuestion)
    ensures Next(w, SendQuestion).pending == Some(AnalysisInFlight(Chatbot))
    ensures Next(w, SendQuestion).state.chatHistory == w.state.chatHistory + [Turn(User, Trim(w.state.userQuestion))]
    ensures Next(w, SendQuestion).state.documentText == w.state.documentText
  {
  }

  /** A chatbot reply appends the model turn and leaves the page idle. */
  lemma ReplyStep(w: World, a: string)
    requires w.pending == Some(AnalysisInFlight(Chatbot)) && w.state.currentAnalysis == Some(Chatbot)
    ensures Enabled(w, AnalysisSettles(Ok(a)))
    ensures Next(w, AnalysisSettles(Ok(a))).state.chatHistory == w.state.chatHistory + [Turn(Model, a)]
    ensures Next(w, AnalysisSettles(Ok(a))).pending.None? && !Next(w, AnalysisSettles(Ok(a))).state.isLoading
    ensures Next(w, AnalysisSettles(Ok(a))).state.error == w.state.error
    ensures Next(w, AnalysisSettles(Ok(a))).state.documentText == w.state.documentText
    ensures Next(w, AnalysisSettles(Ok(a))).state.currentAnalysis == Some(Chatbot)
  {
  }

  /** The events of one chatbot exchange: type `t`, send it, receive `a`. */
  function Exchange(t: string, a: string): seq<Event> {
    [TypeQuestion(t), SendQuestion, AnalysisSettles(Ok(a))]
  }

  /** One question typed, sent and answered on the chatbot tab adds exactly a
      user turn carrying the trimmed question and a model turn carrying the reply. */
  lemma AskAndAnswer(w: World, t: string, a: string) returns (w': World)
    requires !w.state.isLoading && w.pending.None?
    requires w.state.documentText != "" && w.state.currentAnalysis == Some(Chatbot)
    requires Trim(t) != ""
    ensures Run(w, Exchange(t, a)) == Some(w')
    ensures w'.state.chatHistory == w.state.chatHistory + [Turn(User, Trim(t)), Turn(Model, a)]
    ensures !w'.state.isLoading && w'.pending.None? && w'.state.error == ""
    ensures w'.state.documentText == w.state.documentText && w'.state.currentAnalysis == Some(Chatbot)
  {
    var h, q := w.state.chatHistory, Trim(t);
    TypeStep(w, t);
    var w1 := Next(w, TypeQuestion(t));
    assert w1.state.userQuestion == t;
    SendStep(w1);
    var w2 := Next(w1, SendQuestion);
    assert w2.state.chatHistory == h + [Turn(User, q)];
    assert w2.state.error == "";
    ReplyStep(w2, a);
    w' := Next(w2, AnalysisSettles(Ok(a)));
    assert w'.state.chatHistory == h + [Turn(User, q)] + [Turn(Model, a)];
    AppendTwo(h, Turn(User, q), Turn(Model, a));
    Run3(w, TypeQuestion(t), SendQuestion, AnalysisSettles(Ok(a)));
  }

  /** Two exchanges run back to back: the second starts where the first ends. */
  lemma TwoExchanges(w: World, t1: string, a1: string, t2: string, a2: string) returns (w2: World)
    requires !w.state.isLoading && w.pending.None?
    requires w.state.documentText != "" && w.state.currentAnalysis == Some(Chatbot)
    requires Trim(t1) != "" && Trim(t2) != ""
    ensures Run(w, Exchange(t1, a1) + Exchange(t2, a2)) == Some(w2)
    ensures w2.state.chatHistory
            == w.state.chatHistory + [Turn(User, Trim(t1)), Turn(Model, a1)] + [Turn(User, Trim(t2)), Turn(Model, a2)]
  {
    var w1 := AskAndAnswer(w, t1, a1);
    w2 := AskAndAnswer(w1, t2, a2);
    RunAppend(w, Exchange(t1, a1), Exchange(t2, a2));
  }

  /** Two chatbot questions answered in turn extend the history by
      exactly user, model, user, model, in that order. */
  lemma ChatTurnOrder(w: World, t1: string, a1: string, t2: string, a2: string)
    requires !w.state.isLoading && w.pending.None?
    requires w.state.documentText != "" && w.state.currentAnalysis == Some(Chatbot)
    requires Trim(t1) != "" && Trim(t2) != ""
    ensures Run(w, Exchange(t1, a1) + Exchange(t2, a2)).Some?
    ensures Run(w, Exchange(t1, a1) + Exchange(t2, a2)).value.state.chatHistory
            == w.state.chatHistory + [Turn(User, Trim(t1)), Turn(Model, a1), Turn(User, Trim(t2)), Turn(Model, a2)]
  {
    var w2 := TwoExchanges(w, t1, a1, t2, a2);
    AppendPairs(w.state.chatHistory, Turn(User, Trim(t1)), Turn(Model, a1), Turn(User, Trim(t2)), Turn(Model, a2));
  }
}

=== FILE: wrappers.dfy ===
/** Failure-carrying wrappers shared by the frontend and backend models. */
module Wrappers {

  /** An optional value: a missing JSON key, a `null` React state slot, an empty file picker. */
  datatype Option<+T> = None | Some(value: T) {

    /** The value, or `default` when absent (Python's `dict.get(key, default)`). */
    function GetOr(default: T): T {
      match this
      case Some(v) => v
      case None => default
    }
  }

  /** The outcome of a check that either yields a value or an error message. */
  datatype Result<+R, +E> = Success(value: R) | Failure(error: E)
}
